=== FILE: README.md ===
# Calendar booking tools of the real-estate scheduling assistant, in Dafny

This project models the two calendar tools with real logic in the assistant's
`tools/calendar_tools.py`:

- `create_calendar_event` books an appointment. It is a short pipeline that
  stops at the first failure:
  1. It checks that the calendar service is initialised.
  2. It reads the start literal: first as a full date-time (`YYYY-MM-DDTHH:MM:SS`), otherwise as a bare time of day (`HH:MM:SS`) placed on today's São Paulo date. A naive result becomes São Paulo time.
  3. It reads the end literal the same way, but a bare time goes on the start's date. When the end is absent or empty, the end is the start plus one hour.
  4. It asks the calendar for at most one event between the start and the end plus 15 minutes. Any hit is a conflict, reported by that event's title only.
  5. It builds the event body and inserts it.
- `update_calendar_event` fetches an event and overlays the fields the caller supplied. Start and end replace only the raw `dateTime` string. It then writes the event back.

The model is purely functional:

- Literals are strings. Date-times are dates plus times plus an optional UTC offset.
- Instants are whole seconds since 0001-01-01T00:00 UTC, counted the way Python's `date.toordinal()` counts days.
- America/Sao_Paulo is the fixed offset UTC−03:00.
- The calendar service is a `Store` value with one answer function for each of list, insert, get and update.
- Each tool returns its outcome as a tagged datatype, together with the sequence of store calls it made. This makes "no query or insert happened" a checkable statement.
- The service's readiness and the clock are parameters. The clock is the São Paulo reading that `datetime.now(local_tz)` returns, and only its date is used.

Modules, leaf first:

- `Common`: `Option`, `Result` and the store's two failure kinds (an `HttpError` with a status, or any other exception).
- `Civil`: calendar arithmetic, instants, wall-clock addition, and `localize`.
- `IsoFormat`: the two literal forms and `isoformat()`, with their round trips.
- `Events`: the event resource, the attendee mapping and the update overlay.
- `CalendarStore`: store calls, the store, and a reference listing that filters the way the Calendar API does.
- `Booking`: the create pipeline.
- `BookingProperties`: properties of the create pipeline as a whole.
- `Updating`: the update pipeline.
- `Scenarios`: worked requests on concrete literals.

Behaviour the model keeps exactly as the code has it:

- Nothing checks that the end comes after the start (`Scenarios.EndBeforeStartAccepted`).
- A literal that carries an offset keeps that offset. It is not converted to São Paulo time, yet the body still names the zone `America/Sao_Paulo` (`Scenarios.AwareStartKeptAsWritten`).
- The 15-minute buffer follows only the new event's end. A request that starts 10 minutes after an existing event ends is accepted (`Scenarios.BufferOnlyAfterNewEvent`). One whose buffer reaches a later event is refused (`Scenarios.VisitInsideBufferConflicts`).
- Neither tool enforces weekday or business-hours rules. Neither asks for human confirmation: the assistant's only confirmation hook is on `write_file`.
- An empty `end_time` string counts as absent, because the code tests its truthiness.
- pytz's `localize` looks one day to either side of a naive reading, so localising a naive start or end dated 0001-01-01 or 9999-12-31 raises an `OverflowError` (pytz itself is not part of this model; its `localize` is modelled by `Civil.Localize`). No `except` catches it (`Booking.StartOverflow`, `Booking.EndOverflow`, `Scenarios.LastDayStartOverflows`).
- `start + 1 hour` past year 9999 raises an `OverflowError` that no `except` catches either (`Booking.EndOverflow`). The same overflow when adding the buffer is caught by the generic handler and reported as a failed query.
- In an update, a start or end patch on a fetched event that has no `start` or `end` object raises `KeyError`. The generic handler catches it, and nothing is written back.
- The second `except` pair after the conflict check can never run, so it has no counterpart here.

## Model

| member | source | states |
|---|---|---|
| `Civil.Localize` | tools/calendar_tools.py:106-109 | a naive date-time becomes aware at UTC−03:00 with the same date and time, except on 0001-01-01 and 9999-12-31, where localising overflows; an aware one is returned unchanged, not converted |
| `BookingProperties.LocalizeInstant` | tools/calendar_tools.py:121-124 | a localised naive reading off the boundary days denotes its São Paulo wall time (wall seconds + 3 h as a UTC instant); an aware one denotes the instant its own offset gives |
| `Civil.AddSeconds` | tools/calendar_tools.py:126 | adding under a day to a date-time keeps its offset and advances its wall clock, and hence its instant, by exactly that amount; it fails exactly when the result would pass 9999-12-31 |
| `Civil.NextDay` | tools/calendar_tools.py:131 | the day after a valid date is valid and one ordinal later; there is none only after 9999-12-31 |
| `Civil.DaysBeforeNextYear` | tools/calendar_tools.py:126 | the closed-form day count grows by 366 over a leap year and 365 otherwise, which is what lets a carry into a new year keep instants consistent |
| `IsoFormat.ParseDateTimeLiteral` | tools/calendar_tools.py:96 | a full date-time literal yields a valid date-time, aware exactly when an offset suffix follows the seconds |
| `IsoFormat.ParseTimeLiteral` | tools/calendar_tools.py:99 | a time-of-day literal yields a valid time and an offset exactly when a suffix follows |
| `IsoFormat.ParseOffset` | tools/calendar_tools.py:96-99 | an accepted offset suffix is a whole number of minutes strictly inside one day |
| `IsoFormat.ParseFormatNat` | tools/calendar_tools.py:168 | a zero-padded numeral reads back as the number written |
| `IsoFormat.ParseFormatDateTime` | tools/calendar_tools.py:168-173 | `isoformat()` of an aware date-time reads back as that same date-time |
| `IsoFormat.FormatDateTime` | tools/calendar_tools.py:168-172 | `isoformat()` of an aware date-time, which also spells the query bounds at lines 138-139, is 25 characters: the `YYYY-MM-DDTHH:MM:SS` spelling of its date and time, a sign, two digits, a colon and two digits, with `+00:00` for UTC; `ParseFormatDateTime` is its inverse |
| `IsoFormat.ParseFormatNaive` | tools/calendar_tools.py:96 | a written date and time with no suffix reads back as that naive date-time |
| `IsoFormat.ParseFormatTimeLiteral` | tools/calendar_tools.py:99 | a written time of day reads back as that naive time and is never taken for a full date-time |
| `IsoFormat.LiteralFormsDisjoint` | tools/calendar_tools.py:95-101 | no string fits both literal forms, so trying the date-time form first never hides a time-of-day reading |
| `IsoFormat.FormatParseNat` | tools/calendar_tools.py:96-99 | an accepted numeral is exactly the zero-padded spelling of its value at its own width |
| `IsoFormat.DateTimeLiteralSpelling` | tools/calendar_tools.py:96 | every accepted date-time literal is the canonical `YYYY-MM-DDTHH:MM:SS` spelling of its date and time, followed by nothing when naive or by a suffix that reads as its offset |
| `IsoFormat.TimeLiteralSpelling` | tools/calendar_tools.py:99 | every accepted time-of-day literal is the canonical `HH:MM:SS` spelling of its time, followed by nothing when naive or by a suffix that reads as its offset |
| `IsoFormat.OffsetSpelling` | tools/calendar_tools.py:96-99 | the accepted offset suffixes are `Z` (zero) and sign, two digits, colon, two digits, read as signed hours and minutes |
| `Booking.ParseLiteral` | tools/calendar_tools.py:95-103 | a literal is rejected exactly when it fits neither form; any accepted literal gives a valid date-time |
| `Booking.ReadLiteral` | tools/calendar_tools.py:95-109 | an accepted literal is aware and valid; it is unreadable exactly when neither form fits, and overflows exactly when it is naive and falls on 0001-01-01 or 9999-12-31 (a bare time takes the given day) |
| `BookingProperties.StartReadAsDateTimeFirst` | tools/calendar_tools.py:95-109 | a full date-time wins; otherwise a time of day lands on the clock's São Paulo date and keeps the offset it carries, a naive one getting −03:00 and so denoting São Paulo wall time rather than UTC |
| `Booking.NormaliseEnd` | tools/calendar_tools.py:111-126 | an absent or empty end is the start plus exactly one hour on the start's offset (failing only past year 9999); a given end is read exactly as a start is, but on the start's date |
| `BookingProperties.BareEndOnStartDate` | tools/calendar_tools.py:115-124 | a bare time-of-day end lands on the start's calendar date and keeps the offset it carries (−03:00 when naive); a naive one overflows exactly when that date is a boundary day |
| `Booking.ConflictQuery` | tools/calendar_tools.py:129-142 | the query's lower bound reads back as the start, its upper bound as an instant exactly 15 minutes after the end, and it asks for one event; it is missing only when the buffer passes year 9999 |
| `Booking.ZonedSlot` | tools/calendar_tools.py:167-174 | a body's start or end object names the date-time it was built from and the zone `America/Sao_Paulo` |
| `Booking.BuildBody` | tools/calendar_tools.py:163-176 | the body carries the caller's summary, location and description, the normalised start and end instants (no buffer), the São Paulo zone on both ends, and one attendee per address in order |
| `Booking.InsertStage` | tools/calendar_tools.py:178-184 | after an empty conflict answer, the body is inserted; the run is created exactly when the insert succeeds, with the store's link |
| `Booking.ConflictStage` | tools/calendar_tools.py:136-155 | a failed query is a query failure and any hit is a conflict naming the first event, both after that single call; only an empty answer leads to the insert, and every run it produces keeps the store discipline (insert only second, after an empty answer) |
| `Booking.EndStage` | tools/calendar_tools.py:111-131 | an unreadable end, and nothing else, stops with the end-format error; an overflowing default end stops with the uncaught overflow; a buffer past year 9999 is an unexpected query failure with no call; a readable end goes on to the conflict query |
| `Booking.CreateEvent` | tools/calendar_tools.py:74-184 | an uninitialised service makes no call; an insert is only ever the second call, after a query the store answered with no events; a created run's link is the insert's; a conflict names the first returned event's summary |
| `BookingProperties.InvalidStartIffUnparsable` | tools/calendar_tools.py:102-103 | the start-format error happens exactly when the service is ready and the start fits neither form, and then no store call is made |
| `BookingProperties.StartOverflowIffBoundaryDay` | tools/calendar_tools.py:106-107 | the uncaught localisation overflow of the start happens exactly when the service is ready and the start reads as a naive date-time on 0001-01-01 or 9999-12-31, and then no store call is made |
| `BookingProperties.InvalidEndIffUnparsable` | tools/calendar_tools.py:118-119 | the end-format error happens exactly when the start is readable and a non-empty end fits neither form, and then no store call is made |
| `BookingProperties.ConflictWindowExact` | tools/calendar_tools.py:128-142 | every conflict query runs from the normalised start to exactly 15 minutes past the normalised end (one hour and 15 minutes past the start when no end is given) and asks for one event |
| `BookingProperties.AnyHitIsConflict` | tools/calendar_tools.py:144-150 | any event in the answer makes the run a conflict naming only the first event's summary ('desconhecido' if none), with no insert |
| `BookingProperties.InsertedBodyWithoutBuffer` | tools/calendar_tools.py:162-176 | the inserted body holds the normalised start and end; the query's upper bound is exactly its end plus 15 minutes; with no end given it lasts exactly one hour |
| `BookingProperties.AttendeesInOrder` | tools/calendar_tools.py:175 | absent or empty attendees give an empty list; otherwise the body's addresses are the caller's, in order |
| `BookingProperties.CreatedWindowIsFree` | tools/calendar_tools.py:128-150 | against a store that lists faithfully, a created event's window from its start to its end plus 15 minutes overlaps no stored event |
| `CalendarStore.Overlapping` | tools/calendar_tools.py:136-144 | the listing filter keeps every calendar event that ends after the lower bound and starts before the upper one, and nothing else; it is empty exactly when none does |
| `CalendarStore.ListFrom` | tools/calendar_tools.py:136-142 | a faithful listing answers only when both bounds are offset-qualified date-times, and returns at most `maxResults` events, all from the calendar |
| `CalendarStore.ListFromEmptyIffFree` | tools/calendar_tools.py:136-146 | a faithful listing asked for at least one event is empty exactly when no calendar event overlaps the window, so an empty answer means a free window |
| `Events.SummaryOrUnknown` | tools/calendar_tools.py:147 | a conflict title is the event's summary, or 'desconhecido' when it has none |
| `Events.AttendeeList` | tools/calendar_tools.py:175 | one attendee per address, same length, same order |
| `Events.SetDateTime` | tools/calendar_tools.py:247-250 | setting `dateTime` of a start or end object fails exactly when a value is supplied and the object is missing; otherwise a supplied value replaces only `dateTime`, keeping `date` and `timeZone`, and no value leaves the object as it was |
| `Events.EmailsOfAttendeeList` | tools/calendar_tools.py:252 | reading the addresses back from an attendee list gives the original list |
| `Events.Merge` | tools/calendar_tools.py:241-252 | the overlay fails exactly when a start or end is supplied for an event lacking that object |
| `Events.MergeOverlays` | tools/calendar_tools.py:241-252 | each supplied field replaces its slot, omitted ones keep the fetched value, start and end change only `dateTime`, and unknown keys are kept |
| `Events.MergeEmptyPatch` | tools/calendar_tools.py:241-252 | supplying nothing writes back exactly the fetched event |
| `Events.MergeIdempotent` | tools/calendar_tools.py:241-252 | applying the same patch twice equals applying it once |
| `Updating.StoreFailure` | tools/calendar_tools.py:261-264 | an HTTP 404 names the event as not found; every other failure is passed on |
| `Updating.UpdateEvent` | tools/calendar_tools.py:235-266 | an uninitialised service makes no call; a ready one first fetches the event; a failed fetch or a failed write ends as not found (404, naming the event) or as the passed-on error; a fetched event the overlay cannot apply to ends as an unexpected error after the fetch alone; otherwise the overlay is written back as the second and last call, and a successful write ends as updated with the store's link |
| `Updating.UpdateKeepsUnsuppliedFields` | tools/calendar_tools.py:241-258 | after a successful update, every field the caller left out is as fetched, including unknown keys |
| `Updating.UpdateWritesRawTimes` | tools/calendar_tools.py:247-250 | a supplied start or end is written verbatim into `dateTime`, leaving that object's date and zone as fetched |
| `Updating.MissingSlotFailsBeforeWrite` | tools/calendar_tools.py:247-266 | a start or end patch on an event without that object ends as an unexpected error after the fetch alone |
| `Scenarios.OneHourBookingOnMonday` | tools/calendar_tools.py:125-126 | a 14:00 Monday start with no end is created as 14:00–15:00 at −03:00 |
| `Scenarios.EndBeforeStartAccepted` | tools/calendar_tools.py:111-142 | whatever the store answers, an end time of day an hour before the start goes on the start's date unchecked and the conflict query is sent with its upper bound before its lower bound; on an empty answer the inserted body ends before it starts, and the run is created only if the store accepts that body |
| `Scenarios.AwareStartKeptAsWritten` | tools/calendar_tools.py:106-109 | a start written at +00:00 is stored as written, not converted, under the zone name America/Sao_Paulo |
| `Scenarios.BufferOnlyAfterNewEvent` | tools/calendar_tools.py:129-150 | a request starting 10 minutes after an existing event ends is created |
| `Scenarios.VisitInsideBufferConflicts` | tools/calendar_tools.py:129-150 | an existing event starting 10 minutes after the requested end is a conflict naming it |
| `Scenarios.LastDayStartOverflows` | tools/calendar_tools.py:106-107 | a naive start at 10:00 on 9999-12-31 ends with the uncaught overflow and no store call |

## Left out

- `list_upcoming_events`, `search_calendar_events` and `delete_calendar_event`: each is a single store call. The first two take the current UTC time as their lower bound, and `delete_calendar_event` uses no clock. Beyond the empty-result and error messages they have no logic.
- The OAuth flow, token files and service construction in `API/google_auth.py`: file and network I/O. Readiness of the service is a boolean parameter. That includes the import-failure path, where the code leaves `service` undefined rather than `None`.
- The agent loop, prompt text, checkpointing and streaming in `agent.py`. The weekday and business-hours rules exist only as prompt text there, and the human-in-the-loop middleware interrupts only `write_file`, so neither is modelled as a gate.
- The human-readable Portuguese messages: outcomes are tags. The conflict title and the links are carried as data.
- The debug `print` output.
- The time-zone database: America/Sao_Paulo is the fixed UTC−03:00. Historical daylight saving time and local mean time, which `pytz` would apply to old dates, are not modelled.
- `IsoFormat.ParseOffset`: follows the `fromisoformat` grammar of Python 3.11 and later, which accepts a `Z` suffix. Python 3.10 rejects `Z`, so there a start or end ending in `Z` would be an invalid literal.
- Parts of the `fromisoformat` grammar outside the two documented forms:
  - separators other than `T`;
  - fractional seconds and seconds in offsets;
  - `HH` and `HH:MM` times;
  - the compact basic format;
  - a bare date.
  Such literals are rejected here.
- `BookingProperties.CreatedWindowIsFree`: says nothing about all-day events. Such an event's `start` and `end` carry only `date`, so `CalendarStore.Occupies` never holds for it, although the Calendar API lists it and the code then reports a conflict. The service's rule for placing a bare date in time is not part of this model.
- The Calendar API's own behaviour: store answers are parameters. `ListFrom` is a reference listing used only to state the no-double-booking property. It is not a claim about how the service orders or pages results.
- Concurrency: the check-then-insert race between two bookings is outside a single-run model.

=== FILE: booking.dfy ===
/**
 * `create_calendar_event`: a short pipeline that stops at the first failure.
 *
 *   1. the service must be initialised;
 *   2. the start literal is read as a full date-time, else as a time of day
 *      on today's São Paulo date, and localised if naive;
 *   3. the end literal is read the same way but placed on the start's date,
 *      or, when absent or empty, the end is the start plus one hour;
 *   4. the store is asked for at most one event between the start and the
 *      end plus a 15-minute buffer, and any hit is a conflict;
 *   5. the event body is built and inserted.
 *
 * Nothing checks that the end comes after the start, and an aware literal
 * keeps its own offset: it is not converted to São Paulo time.
 */
module Booking {
  import opened Common
  import opened Civil
  import opened IsoFormat
  import opened Events
  import opened CalendarStore

  /** The default duration of an event given without an end. */
  const OneHour: int := 3600

  /** The free time demanded after the new event's end. */
  const BufferSeconds: int := 15 * 60

  /** The conflict query asks for a single event. */
  const ConflictMaxResults: nat := 1

  /** The arguments of `create_calendar_event`; None is an argument left out. */
  datatype Request = Request(
    summary: string,
    start: string,
    end: Option<string>,
    attendees: Option<seq<string>>,
    location: Option<string>,
    description: Option<string>)

  /**
   * How a create request ends. `StartOverflow` and `EndOverflow` are the
   * `OverflowError`s no `except` clause catches: localising a naive start or
   * end on a boundary day, or `start + 1 hour` past year 9999.
   */
  datatype Outcome =
    | NotInitialised
    | InvalidStart
    | StartOverflow
    | InvalidEnd
    | EndOverflow
    | Conflict(title: string)
    | QueryFailed(error: StoreError)
    | InsertFailed(error: StoreError)
    | Created(link: Option<string>)

  /** An outcome together with the store calls made on the way to it. */
  datatype Run = Run(outcome: Outcome, calls: seq<Call>)

  /**
   * The store discipline of a run: an insert is only ever the second call,
   * after a query the store answered with no events; a created run reports
   * the insert's link; a conflict follows a single query and names the
   * first event it returned.
   */
  predicate Disciplined(r: Run, store: Store) {
    && (forall i :: 0 <= i < |r.calls| && r.calls[i].Insert? ==>
          i == 1 && r.calls[0].List? && store.list(r.calls[0].query) == Success([]))
    && (r.outcome.Created? ==>
          |r.calls| == 2 && r.calls[1].Insert? && store.insert(r.calls[1].body) == Success(r.outcome.link))
    && (r.outcome.Conflict? ==>
          && |r.calls| == 1 && r.calls[0].List?
          && store.list(r.calls[0].query).Success?
          && |store.list(r.calls[0].query).value| > 0
          && r.outcome.title == SummaryOrUnknown(store.list(r.calls[0].query).value[0]))
  }

  /** Either literal form: a full date-time as written, or a time of day placed on `day`. */
  function ParseLiteral(s: string, day: Date): (r: Option<DateTime>)
    requires ValidDate(day)
    ensures r.Some? ==> ValidDateTime(r.value)
    ensures r.None? <==> ParseDateTimeLiteral(s).None? && ParseTimeLiteral(s).None?
  {
    match ParseDateTimeLiteral(s)
    case Some(dt) => Some(dt)
    case None =>
      match ParseTimeLiteral(s)
      case Some((t, offset)) => Some(DateTime(day, t, offset))
      case None => None
  }

  /** A start or end date-time, or why there is none. */
  datatype Reading = At(dt: DateTime) | Unparsable | Overflows

  /**
   * Steps 2 and 3 for one literal: either form, a time of day placed on
   * `day`, then localised when naive.
   */
  function ReadLiteral(s: string, day: Date): (r: Reading)
    requires ValidDate(day)
    ensures r.At? ==> ValidDateTime(r.dt) && r.dt.IsAware()
    ensures r.Unparsable? <==> ParseDateTimeLiteral(s).None? && ParseTimeLiteral(s).None?
    ensures r.Overflows? <==>
              || (ParseDateTimeLiteral(s).Some? && !ParseDateTimeLiteral(s).value.IsAware()
                  && OnBoundaryDay(ParseDateTimeLiteral(s).value.date))
              || (ParseDateTimeLiteral(s).None? && ParseTimeLiteral(s).Some? && ParseTimeLiteral(s).value.1.None?
                  && OnBoundaryDay(day))
  {
    match ParseLiteral(s, day)
    case None => Unparsable
    case Some(dt) =>
      match Localize(dt)
      case None => Overflows
      case Some(aware) => At(aware)
  }

  /** Python's truthiness of the `end_time` argument: None and "" both count as absent. */
  predicate EndGiven(end: Option<string>) {
    end.Some? && end.value != ""
  }

  /**
   * Step 3: the end instant, read like the start but on the start's date
   * when only a time is given; one hour after the start when absent.
   */
  function NormaliseEnd(end: Option<string>, start: DateTime): (r: Reading)
    requires ValidDateTime(start) && start.IsAware()
    ensures r.At? ==> ValidDateTime(r.dt) && r.dt.IsAware()
    ensures !EndGiven(end) ==> !r.Unparsable?
    ensures !EndGiven(end) && r.At? ==> Instant(r.dt) == Instant(start) + OneHour && r.dt.offset == start.offset
    ensures !EndGiven(end) ==> (r.Overflows? <==> start.date == Date(MaxYear, 12, 31) && SecondOfDay(start.time) + OneHour >= SecondsPerDay)
    ensures EndGiven(end) ==> r == ReadLiteral(end.value, start.date)
  {
    if !EndGiven(end) then
      match AddSeconds(start, OneHour)
      case Some(dt) => At(dt)
      case None => Overflows
    else
      ReadLiteral(end.value, start.date)
  }

  /**
   * Step 4's query: from the start to the end plus the buffer, at most one
   * event. None when adding the buffer leaves year 9999, which the tool
   * reports through its generic `except Exception`.
   */
  function ConflictQuery(start: DateTime, end: DateTime): (r: Option<Query>)
    requires ValidDateTime(start) && start.IsAware()
    requires ValidDateTime(end) && end.IsAware()
    ensures r.None? <==> end.date == Date(MaxYear, 12, 31) && SecondOfDay(end.time) + BufferSeconds >= SecondsPerDay
    ensures r.Some? ==> ParseDateTimeLiteral(r.value.timeMin) == Some(start)
    ensures r.Some? ==> && ParseDateTimeLiteral(r.value.timeMax).Some?
                        && ParseDateTimeLiteral(r.value.timeMax).value.offset == end.offset
                        && Instant(ParseDateTimeLiteral(r.value.timeMax).value) == Instant(end) + BufferSeconds
    ensures r.Some? ==> r.value.maxResults == ConflictMaxResults
  {
    match AddSeconds(end, BufferSeconds)
    case None => None
    case Some(limit) =>
      ParseFormatDateTime(start);
      ParseFormatDateTime(limit);
      Some(Query(FormatDateTime(start), FormatDateTime(limit), ConflictMaxResults))
  }

  /** The `start` or `end` object of a created event. */
  function ZonedSlot(dt: DateTime): (r: EventTime)
    requires ValidDateTime(dt) && dt.IsAware()
    ensures r.dateTime.Some? && ParseDateTimeLiteral(r.dateTime.value) == Some(dt)
    ensures r.timeZone == Some(SaoPauloZoneName) && r.date.None?
  {
    ParseFormatDateTime(dt);
    EventTime(Some(FormatDateTime(dt)), None, Some(SaoPauloZoneName))
  }

  /**
   * Step 5's body: the caller's text fields, the normalised instants without
   * the buffer, the São Paulo zone name on both ends, and one attendee per
   * address (none when the list is absent or empty).
   */
  function BuildBody(req: Request, start: DateTime, end: DateTime): (body: Event)
    requires ValidDateTime(start) && start.IsAware()
    requires ValidDateTime(end) && end.IsAware()
    ensures body.summary == Some(req.summary)
    ensures body.location == req.location && body.description == req.description
    ensures SlotInstant(body.start) == Some(Instant(start))
    ensures SlotInstant(body.end) == Some(Instant(end))
    ensures ParseDateTimeLiteral(body.start.value.dateTime.value) == Some(start)
    ensures ParseDateTimeLiteral(body.end.value.dateTime.value) == Some(end)
    ensures body.start.value.timeZone == Some(SaoPauloZoneName)
    ensures body.end.value.timeZone == Some(SaoPauloZoneName)
    ensures body.attendees.Some?
    ensures |body.attendees.value| == |req.attendees.GetOr([])|
    ensures forall i :: 0 <= i < |body.attendees.value| ==> body.attendees.value[i].email == req.attendees.value[i]
    ensures body.others == map[]
  {
    Event(
      Some(req.summary),
      req.location,
      req.description,
      Some(ZonedSlot(start)),
      Some(ZonedSlot(end)),
      Some(if req.attendees.Some? && req.attendees.value != [] then AttendeeList(req.attendees.value) else []),
      map[])
  }

  /**
   * Step 5 once the conflict query came back empty: build the body and
   * insert it.
   */
  function InsertStage(req: Request, start: DateTime, end: DateTime, q: Query, store: Store): (r: Run)
    requires ValidDateTime(start) && start.IsAware()
    requires ValidDateTime(end) && end.IsAware()
    ensures r.calls == [List(q), Insert(BuildBody(req, start, end))]
    ensures r.outcome.Created? || r.outcome.InsertFailed?
    ensures r.outcome.Created? <==> store.insert(BuildBody(req, start, end)).Success?
    ensures r.outcome.Created? ==> r.outcome.link == store.insert(BuildBody(req, start, end)).value
    ensures r.outcome.InsertFailed? ==> r.outcome.error == store.insert(BuildBody(req, start, end)).error
  {
    var body := BuildBody(req, start, end);
    match store.insert(body)
    case Failure(e) => Run(InsertFailed(e), [List(q), Insert(body)])
    case Success(link) => Run(Created(link), [List(q), Insert(body)])
  }

  /**
   * Step 4 once the query is built: ask the store for an event inside the
   * window; a failed query or any hit ends the run before anything is
   * inserted.
   */
  function ConflictStage(req: Request, start: DateTime, end: DateTime, q: Query, store: Store): (r: Run)
    requires ValidDateTime(start) && start.IsAware()
    requires ValidDateTime(end) && end.IsAware()
    ensures |r.calls| >= 1 && r.calls[0] == List(q)
    ensures r.outcome.QueryFailed? || r.outcome.Conflict? || r.outcome.Created? || r.outcome.InsertFailed?
    ensures Disciplined(r, store)
    ensures store.list(q).Failure? ==> r == Run(QueryFailed(store.list(q).error), [List(q)])
    ensures store.list(q).Success? && store.list(q).value != [] ==>
              r == Run(Conflict(SummaryOrUnknown(store.list(q).value[0])), [List(q)])
    ensures store.list(q) == Success([]) ==> r == InsertStage(req, start, end, q, store)
  {
    match store.list(q)
    case Failure(e) => Run(QueryFailed(e), [List(q)])
    case Success(found) =>
      if found != [] then Run(Conflict(SummaryOrUnknown(found[0])), [List(q)])
      else InsertStage(req, start, end, q, store)
  }

  /**
   * Steps 3 to 5 once the start is known. Adding the buffer past year 9999
   * fails inside the query's `try` and is reported as an unexpected error.
   */
  function EndStage(req: Request, start: DateTime, store: Store): (r: Run)
    requires ValidDateTime(start) && start.IsAware()
    ensures r.outcome == InvalidEnd <==> NormaliseEnd(req.end, start).Unparsable?
    ensures r.outcome != InvalidStart && r.outcome != StartOverflow && r.outcome != NotInitialised
    ensures Disciplined(r, store)
    ensures NormaliseEnd(req.end, start).Unparsable? ==> r == Run(InvalidEnd, [])
    ensures NormaliseEnd(req.end, start).Overflows? ==> r == Run(EndOverflow, [])
    ensures var end := NormaliseEnd(req.end, start);
      end.At? && ConflictQuery(start, end.dt).None? ==> r == Run(QueryFailed(Unexpected), [])
    ensures var end := NormaliseEnd(req.end, start);
      end.At? && ConflictQuery(start, end.dt).Some? ==>
        r == ConflictStage(req, start, end.dt, ConflictQuery(start, end.dt).value, store)
  {
    match NormaliseEnd(req.end, start)
    case Unparsable => Run(InvalidEnd, [])
    case Overflows => Run(EndOverflow, [])
    case At(end) =>
      match ConflictQuery(start, end)
      case None => Run(QueryFailed(Unexpected), [])
      case Some(q) => ConflictStage(req, start, end, q, store)
  }

  /**
   * `create_calendar_event(...)` with the service's readiness, the São Paulo
   * clock reading `now` (only its date is used) and the store as parameters.
   */
  function CreateEvent(ready: bool, req: Request, now: DateTime, store: Store): (r: Run)
    requires ValidDateTime(now)
    ensures !ready ==> r == Run(NotInitialised, [])
    ensures ready && ReadLiteral(req.start, now.date).Unparsable? ==> r == Run(InvalidStart, [])
    ensures ready && ReadLiteral(req.start, now.date).Overflows? ==> r == Run(StartOverflow, [])
    ensures ready && ReadLiteral(req.start, now.date).At? ==>
              r == EndStage(req, ReadLiteral(req.start, now.date).dt, store)
    ensures forall i :: 0 <= i < |r.calls| && r.calls[i].Insert? ==>
              i == 1 && r.calls[0].List? && store.list(r.calls[0].query) == Success([])
    ensures r.outcome.Created? ==>
              |r.calls| == 2 && r.calls[1].Insert? && store.insert(r.calls[1].body) == Success(r.outcome.link)
    ensures r.outcome.Conflict? ==>
              && |r.calls| == 1 && r.calls[0].List?
              && store.list(r.calls[0].query).Success?
              && |store.list(r.calls[0].query).value| > 0
              && r.outcome.title == SummaryOrUnknown(store.list(r.calls[0].query).value[0])
  {
    if !ready then Run(NotInitialised, [])
    else
      match ReadLiteral(req.start, now.date)
      case Unparsable => Run(InvalidStart, [])
      case Overflows => Run(StartOverflow, [])
      case At(start) => EndStage(req, start, store)
  }
}

=== FILE: booking_properties.dfy ===
/**
 * What `create_calendar_event` promises, stated over the whole pipeline:
 * the order in which the literals are read, the local-zone rule, the
 * default duration, the exact conflict window, the inserted body, and the
 * guarantee that nothing is written over an occupied window when the store
 * answers faithfully.
 */
module BookingProperties {
  import opened Common
  import opened Civil
  import opened IsoFormat
  import opened Events
  import opened CalendarStore
  import opened Booking

  /**
   * A start literal is tried as a full date-time first; only when that fails
   * is it read as a time of day, which is placed on the clock's São Paulo
   * date and, when naive, read as São Paulo wall time rather than UTC.
   */
  lemma StartReadAsDateTimeFirst(s: string, today: Date)
    requires ValidDate(today)
    ensures ParseDateTimeLiteral(s).Some? && Localize(ParseDateTimeLiteral(s).value).Some? ==>
              ReadLiteral(s, today) == At(Localize(ParseDateTimeLiteral(s).value).value)
    ensures ParseDateTimeLiteral(s).None? && ParseTimeLiteral(s).Some? && ReadLiteral(s, today).At? ==>
              && ReadLiteral(s, today).dt.date == today
              && ReadLiteral(s, today).dt.time == ParseTimeLiteral(s).value.0
              && ReadLiteral(s, today).dt.offset
                   == (if ParseTimeLiteral(s).value.1.Some? then ParseTimeLiteral(s).value.1 else Some(SaoPauloOffset))
    ensures ParseDateTimeLiteral(s).None? && ParseTimeLiteral(s).Some? && ParseTimeLiteral(s).value.1.None?
            && !OnBoundaryDay(today) ==>
              && ReadLiteral(s, today).At?
              && Instant(ReadLiteral(s, today).dt)
                   == (Ordinal(today) - 1) * SecondsPerDay + SecondOfDay(ParseTimeLiteral(s).value.0) - SaoPauloOffset
  {
  }

  /** A naive instant is São Paulo wall time; an aware one denotes the instant its own offset gives. */
  lemma LocalizeInstant(dt: DateTime)
    requires ValidDateTime(dt)
    ensures !dt.IsAware() && !OnBoundaryDay(dt.date) ==> Instant(Localize(dt).value) == WallSeconds(dt) - SaoPauloOffset
    ensures dt.IsAware() ==> Instant(Localize(dt).value) == WallSeconds(dt) - dt.offset.value
  {
  }

  /**
   * A naive start on 0001-01-01 or 9999-12-31 (a bare time counts when the
   * clock is on such a day) ends the run with the uncaught overflow of
   * localisation before any store call; no other run ends that way.
   */
  lemma StartOverflowIffBoundaryDay(ready: bool, req: Request, now: DateTime, store: Store)
    requires ValidDateTime(now)
    ensures CreateEvent(ready, req, now, store).outcome == StartOverflow
            <==> && ready
                 && ParseLiteral(req.start, now.date).Some?
                 && !ParseLiteral(req.start, now.date).value.IsAware()
                 && OnBoundaryDay(ParseLiteral(req.start, now.date).value.date)
    ensures CreateEvent(ready, req, now, store).outcome == StartOverflow ==> CreateEvent(ready, req, now, store).calls == []
  {
  }

  /**
   * A start literal that fits neither form ends the run with the start-format
   * error, and the store is never called; no other run ends that way.
   */
  lemma InvalidStartIffUnparsable(ready: bool, req: Request, now: DateTime, store: Store)
    requires ValidDateTime(now)
    ensures CreateEvent(ready, req, now, store).outcome == InvalidStart
            <==> ready && ParseDateTimeLiteral(req.start).None? && ParseTimeLiteral(req.start).None?
    ensures CreateEvent(ready, req, now, store).outcome == InvalidStart ==> CreateEvent(ready, req, now, store).calls == []
  {
  }

  /**
   * An end literal that is given, non-empty and fits neither form ends the
   * run with the end-format error once the start is valid, and the store is
   * never called; no other run ends that way.
   */
  lemma InvalidEndIffUnparsable(ready: bool, req: Request, now: DateTime, store: Store)
    requires ValidDateTime(now)
    ensures CreateEvent(ready, req, now, store).outcome == InvalidEnd
            <==> && ready
                 && ReadLiteral(req.start, now.date).At?
                 && EndGiven(req.end)
                 && ParseDateTimeLiteral(req.end.value).None?
                 && ParseTimeLiteral(req.end.value).None?
    ensures CreateEvent(ready, req, now, store).outcome == InvalidEnd ==> CreateEvent(ready, req, now, store).calls == []
  {
  }

  /**
   * A bare time-of-day end lands on the start's calendar date, not on
   * today's; a naive one fails to localise only when that date is a
   * boundary day.
   */
  lemma BareEndOnStartDate(end: string, start: DateTime)
    requires ValidDateTime(start) && start.IsAware()
    requires ParseDateTimeLiteral(end).None? && ParseTimeLiteral(end).Some?
    ensures NormaliseEnd(Some(end), start).Overflows? <==> ParseTimeLiteral(end).value.1.None? && OnBoundaryDay(start.date)
    ensures NormaliseEnd(Some(end), start).At? ==>
              && NormaliseEnd(Some(end), start).dt.date == start.date
              && NormaliseEnd(Some(end), start).dt.time == ParseTimeLiteral(end).value.0
              && NormaliseEnd(Some(end), start).dt.offset
                   == (if ParseTimeLiteral(end).value.1.Some? then ParseTimeLiteral(end).value.1 else Some(SaoPauloOffset))
  {
  }

  /** Whether a run reached the store with a conflict query. */
  predicate Queried(r: Run) {
    |r.calls| >= 1 && r.calls[0].List?
  }

  /**
   * Every query sent covers exactly the normalised start through the
   * normalised end plus 15 minutes, and asks for one event; the end is one
   * hour after the start when no end was given.
   */
  lemma ConflictWindowExact(ready: bool, req: Request, now: DateTime, store: Store)
    requires ValidDateTime(now)
    requires Queried(CreateEvent(ready, req, now, store))
    ensures var q := CreateEvent(ready, req, now, store).calls[0].query;
            var start := ReadLiteral(req.start, now.date);
      && start.At?
      && NormaliseEnd(req.end, start.dt).At?
      && ParseDateTimeLiteral(q.timeMin) == Some(start.dt)
      && ParseDateTimeLiteral(q.timeMax).Some?
      && Instant(ParseDateTimeLiteral(q.timeMax).value)
           == Instant(NormaliseEnd(req.end, start.dt).dt) + BufferSeconds
      && q.maxResults == 1
      && (!EndGiven(req.end) ==>
            Instant(ParseDateTimeLiteral(q.timeMax).value) == Instant(start.dt) + OneHour + BufferSeconds)
  {
    var r := CreateEvent(ready, req, now, store);
    var start := ReadLiteral(req.start, now.date);
    assert ready && start.At?;
    var end := NormaliseEnd(req.end, start.dt);
    assert end.At?;
    assert ConflictQuery(start.dt, end.dt).Some?;
    assert r.calls[0].query == ConflictQuery(start.dt, end.dt).value;
  }

  /**
   * Any event returned for the query is a conflict naming only the first
   * event's summary ("desconhecido" if it has none), and nothing is inserted.
   */
  lemma AnyHitIsConflict(ready: bool, req: Request, now: DateTime, store: Store)
    requires ValidDateTime(now)
    requires Queried(CreateEvent(ready, req, now, store))
    requires var q := CreateEvent(ready, req, now, store).calls[0].query;
             store.list(q).Success? && store.list(q).value != []
    ensures var r := CreateEvent(ready, req, now, store);
      && r.outcome == Conflict(SummaryOrUnknown(store.list(r.calls[0].query).value[0]))
      && r.calls == [r.calls[0]]
  {
    var r := CreateEvent(ready, req, now, store);
    var start := ReadLiteral(req.start, now.date);
    assert ready && start.At?;
    var end := NormaliseEnd(req.end, start.dt);
    assert end.At?;
    assert r.calls[0].query == ConflictQuery(start.dt, end.dt).value;
  }

  /**
   * The inserted body carries the normalised start and end, with no buffer
   * added: the query's upper bound is exactly the body's end plus 15
   * minutes. When no end was given the body lasts exactly one hour.
   */
  lemma InsertedBodyWithoutBuffer(ready: bool, req: Request, now: DateTime, store: Store)
    requires ValidDateTime(now)
    requires var r := CreateEvent(ready, req, now, store); |r.calls| == 2 && r.calls[1].Insert?
    ensures var r := CreateEvent(ready, req, now, store);
            var q := r.calls[0].query;
            var body := r.calls[1].body;
            var start := ReadLiteral(req.start, now.date);
      && start.At?
      && NormaliseEnd(req.end, start.dt).At?
      && body == BuildBody(req, start.dt, NormaliseEnd(req.end, start.dt).dt)
      && SlotInstant(body.start) == Some(Instant(start.dt))
      && SlotInstant(body.end).Some?
      && ParseDateTimeLiteral(q.timeMax).Some?
      && Instant(ParseDateTimeLiteral(q.timeMax).value) == SlotInstant(body.end).value + BufferSeconds
      && (!EndGiven(req.end) ==> SlotInstant(body.end).value == SlotInstant(body.start).value + OneHour)
  {
    var r := CreateEvent(ready, req, now, store);
    var start := ReadLiteral(req.start, now.date);
    assert ready && start.At?;
    var end := NormaliseEnd(req.end, start.dt);
    assert end.At?;
    assert r.calls[0].query == ConflictQuery(start.dt, end.dt).value;
    assert r.calls[1].body == BuildBody(req, start.dt, end.dt);
  }

  /** Absent and empty attendee lists both give an empty list; otherwise one entry per address, in order. */
  lemma AttendeesInOrder(req: Request, start: DateTime, end: DateTime)
    requires ValidDateTime(start) && start.IsAware()
    requires ValidDateTime(end) && end.IsAware()
    ensures req.attendees.None? ==> BuildBody(req, start, end).attendees == Some([])
    ensures req.attendees.Some? ==> Emails(BuildBody(req, start, end).attendees.value) == req.attendees.value
  {
    if req.attendees.Some? && req.attendees.value != [] {
      EmailsOfAttendeeList(req.attendees.value);
    }
  }

  /** A store whose listing answers every query faithfully from `calendar`. */
  ghost predicate ListsFaithfully(store: Store, calendar: seq<Event>) {
    forall q :: store.list(q) == ListFrom(calendar, q)
  }

  /**
   * No double booking against a faithful store: when an event is created, no
   * event of the calendar occupies any part of the window from its start to
   * its end plus 15 minutes.
   */
  lemma CreatedWindowIsFree(ready: bool, req: Request, now: DateTime, store: Store, calendar: seq<Event>)
    requires ValidDateTime(now)
    requires ListsFaithfully(store, calendar)
    requires CreateEvent(ready, req, now, store).outcome.Created?
    ensures var body := CreateEvent(ready, req, now, store).calls[1].body;
      && SlotInstant(body.start).Some? && SlotInstant(body.end).Some?
      && forall i :: 0 <= i < |calendar| ==>
           !Occupies(calendar[i], SlotInstant(body.start).value, SlotInstant(body.end).value + BufferSeconds)
  {
    var r := CreateEvent(ready, req, now, store);
    InsertedBodyWithoutBuffer(ready, req, now, store);
    ConflictWindowExact(ready, req, now, store);
    var q := r.calls[0].query;
    assert store.list(q) == Success([]);
    assert ListFrom(calendar, q) == Success([]);
    ListFromEmptyIffFree(calendar, q);
  }
}

=== FILE: civil.dfy ===
/**
 * Proleptic Gregorian calendar arithmetic, as Python's `datetime` does it:
 * calendar dates, times of day, date-times with an optional fixed UTC
 * offset, the absolute instant an aware date-time denotes, and wall-clock
 * addition of a `timedelta` shorter than one day.
 *
 * Instants are whole seconds since 0001-01-01T00:00:00 UTC; the literal
 * grammar has no fractional seconds, so microseconds never arise.
 */
module Civil {
  import opened Common

  const SecondsPerDay: int := 86400
  const MinYear: int := 1
  const MaxYear: int := 9999

  /** America/Sao_Paulo as the fixed UTC-03:00 offset, in seconds east of UTC. */
  const SaoPauloOffset: int := -3 * 3600

  datatype Date = Date(year: int, month: int, day: int)

  datatype Time = Time(hour: int, minute: int, second: int)

  /** A `datetime`: naive when `offset` is None, aware otherwise (seconds east of UTC). */
  datatype DateTime = DateTime(date: Date, time: Time, offset: Option<int>) {
    predicate IsAware() {
      offset.Some?
    }
  }

  predicate IsLeapYear(y: int) {
    y % 4 == 0 && (y % 100 != 0 || y % 400 == 0)
  }

  function DaysInMonth(y: int, m: int): int
    requires 1 <= m <= 12
  {
    if m == 2 then (if IsLeapYear(y) then 29 else 28)
    else if m == 4 || m == 6 || m == 9 || m == 11 then 30
    else 31
  }

  function DaysInYear(y: int): int {
    if IsLeapYear(y) then 366 else 365
  }

  /** The range `datetime.date` accepts. */
  predicate ValidDate(d: Date) {
    && MinYear <= d.year <= MaxYear
    && 1 <= d.month <= 12
    && 1 <= d.day <= DaysInMonth(d.year, d.month)
  }

  predicate ValidTime(t: Time) {
    0 <= t.hour < 24 && 0 <= t.minute < 60 && 0 <= t.second < 60
  }

  /**
   * An offset `datetime.timezone` accepts (strictly inside one day) that is a
   * whole number of minutes, the only kind the literal grammar can spell.
   */
  predicate ValidOffset(o: int) {
    -SecondsPerDay < o < SecondsPerDay && o % 60 == 0
  }

  predicate ValidDateTime(dt: DateTime) {
    && ValidDate(dt.date)
    && ValidTime(dt.time)
    && (dt.offset.Some? ==> ValidOffset(dt.offset.value))
  }

  /** Days in the years before `y`, in closed form. */
  function DaysBeforeYear(y: int): int
    requires y >= 1
  {
    var p := y - 1;
    365 * p + p / 4 - p / 100 + p / 400
  }

  /** Days in the months of year `y` before month `m`. */
  function DaysBeforeMonth(y: int, m: int): int
    requires 1 <= m <= 12
  {
    [0, 31, 59, 90, 120, 151, 181, 212, 243, 273, 304, 334][m - 1]
    + (if m > 2 && IsLeapYear(y) then 1 else 0)
  }

  /** Python's `date.toordinal()`: 0001-01-01 is day 1. */
  function Ordinal(d: Date): int
    requires ValidDate(d)
  {
    DaysBeforeYear(d.year) + DaysBeforeMonth(d.year, d.month) + d.day
  }

  function SecondOfDay(t: Time): int {
    t.hour * 3600 + t.minute * 60 + t.second
  }

  /** The time of day `s` seconds after midnight. */
  function TimeOfSecond(s: int): (t: Time)
    requires 0 <= s < SecondsPerDay
    ensures ValidTime(t)
    ensures SecondOfDay(t) == s
  {
    Time(s / 3600, (s % 3600) / 60, s % 60)
  }

  /** The local wall-clock reading of `dt` as seconds since 0001-01-01T00:00, ignoring any offset. */
  function WallSeconds(dt: DateTime): int
    requires ValidDateTime(dt)
  {
    (Ordinal(dt.date) - 1) * SecondsPerDay + SecondOfDay(dt.time)
  }

  /** The absolute instant an aware date-time denotes, in seconds since 0001-01-01T00:00 UTC. */
  function Instant(dt: DateTime): int
    requires ValidDateTime(dt) && dt.IsAware()
  {
    WallSeconds(dt) - dt.offset.value
  }

  /** Leap-year bookkeeping: a year contributes `DaysInYear` days to the closed form. */
  lemma DaysBeforeNextYear(y: int)
    requires y >= 1
    ensures DaysBeforeYear(y + 1) == DaysBeforeYear(y) + DaysInYear(y)
  {
    var p := y - 1;
    assert (p + 1) / 4 - p / 4 == (if y % 4 == 0 then 1 else 0);
    assert (p + 1) / 100 - p / 100 == (if y % 100 == 0 then 1 else 0);
    assert (p + 1) / 400 - p / 400 == (if y % 400 == 0 then 1 else 0);
  }

  /**
   * The calendar day after `d`, or None past 9999-12-31 (where Python raises
   * `OverflowError`); the ordinal advances by exactly one.
   */
  function NextDay(d: Date): (r: Option<Date>)
    requires ValidDate(d)
    ensures r.None? <==> d == Date(MaxYear, 12, 31)
    ensures r.Some? ==> ValidDate(r.value) && Ordinal(r.value) == Ordinal(d) + 1
  {
    if d.day < DaysInMonth(d.year, d.month) then
      Some(d.(day := d.day + 1))
    else if d.month < 12 then
      Some(Date(d.year, d.month + 1, 1))
    else if d.year < MaxYear then
      DaysBeforeNextYear(d.year);
      Some(Date(d.year + 1, 1, 1))
    else
      None
  }

  /**
   * `dt + timedelta(seconds=k)` for `0 <= k < 1 day`: wall-clock addition that
   * keeps the offset, or None when the result leaves year 9999.
   */
  function AddSeconds(dt: DateTime, k: int): (r: Option<DateTime>)
    requires ValidDateTime(dt)
    requires 0 <= k < SecondsPerDay
    ensures r.None? <==> dt.date == Date(MaxYear, 12, 31) && SecondOfDay(dt.time) + k >= SecondsPerDay
    ensures r.Some? ==> && ValidDateTime(r.value)
                        && r.value.offset == dt.offset
                        && WallSeconds(r.value) == WallSeconds(dt) + k
  {
    var s := SecondOfDay(dt.time) + k;
    if s < SecondsPerDay then
      Some(dt.(time := TimeOfSecond(s)))
    else
      match NextDay(dt.date)
      case None => None
      case Some(next) => Some(DateTime(next, TimeOfSecond(s - SecondsPerDay), dt.offset))
  }

  /**
   * The first and the last day `datetime` can represent. pytz's `localize`
   * looks one day to either side of a naive reading, which raises
   * `OverflowError` on these two days.
   */
  predicate OnBoundaryDay(d: Date) {
    d == Date(MinYear, 1, 1) || d == Date(MaxYear, 12, 31)
  }

  /**
   * `local_tz.localize(dt)` for a naive `dt`, the untouched `dt` otherwise: a
   * naive reading is taken as São Paulo wall time, an aware one keeps its own
   * offset and is not converted. None is the `OverflowError` of localising a
   * naive reading on a boundary day.
   */
  function Localize(dt: DateTime): (r: Option<DateTime>)
    requires ValidDateTime(dt)
    ensures r.None? <==> !dt.IsAware() && OnBoundaryDay(dt.date)
    ensures r.Some? ==> ValidDateTime(r.value) && r.value.IsAware()
    ensures r.Some? ==> r.value.date == dt.date && r.value.time == dt.time
    ensures dt.IsAware() ==> r == Some(dt)
    ensures r.Some? && !dt.IsAware() ==> r.value.offset == Some(SaoPauloOffset)
  {
    if dt.offset.Some? then Some(dt)
    else if OnBoundaryDay(dt.date) then None
    else Some(dt.(offset := Some(SaoPauloOffset)))
  }
}

=== FILE: common.dfy ===
/** Small failure-carrying datatypes shared by the calendar model. */
module Common {

  /** A value that may be absent: Python's `None` for optional arguments and missing keys. */
  datatype Option<+T> = None | Some(value: T) {

    /** The wrapped value, or `default` when absent. */
    function GetOr(default: T): T {
      match this
      case Some(v) => v
      case None => default
    }
  }

  /** The outcome of one call into the calendar store. */
  datatype Result<+R, +E> = Success(value: R) | Failure(error: E)

  /**
   * How a call into the calendar store can fail, split the way the tools'
   * `except` clauses split it: an `HttpError` carrying the response status,
   * or any other exception.
   */
  datatype StoreError = HttpError(status: int) | Unexpected
}

=== FILE: events.dfy ===
/**
 * Calendar events as the tools build and exchange them, the attendee list
 * mapping, and the field-by-field overlay `update_calendar_event` applies to
 * an event it has fetched.
 */
module Events {
  import opened Common

  /** The zone name written into both ends of every created event. */
  const SaoPauloZoneName: string := "America/Sao_Paulo"

  /** The summary reported for a conflicting event that has none. */
  const UnknownSummary: string := "desconhecido"

  datatype Attendee = Attendee(email: string)

  /** An event's `start` or `end` object; an absent key is None. */
  datatype EventTime = EventTime(dateTime: Option<string>, date: Option<string>, timeZone: Option<string>)

  /**
   * An event resource. The fields the tools read or write are explicit; every
   * other key the store returns (id, status, htmlLink, ...) lives in `others`
   * and is carried along untouched.
   */
  datatype Event = Event(
    summary: Option<string>,
    location: Option<string>,
    description: Option<string>,
    start: Option<EventTime>,
    end: Option<EventTime>,
    attendees: Option<seq<Attendee>>,
    others: map<string, string>)

  /** `event.get('summary', 'desconhecido')`. */
  function SummaryOrUnknown(e: Event): (title: string)
    ensures e.summary.Some? ==> title == e.summary.value
    ensures e.summary.None? ==> title == UnknownSummary
  {
    e.summary.GetOr(UnknownSummary)
  }

  /** `[{'email': email} for email in emails]`. */
  function AttendeeList(emails: seq<string>): (r: seq<Attendee>)
    ensures |r| == |emails|
    ensures forall i :: 0 <= i < |r| ==> r[i].email == emails[i]
  {
    if emails == [] then []
    else [Attendee(emails[0])] + AttendeeList(emails[1..])
  }

  /** The addresses of an attendee list, in order. */
  function Emails(attendees: seq<Attendee>): seq<string> {
    if attendees == [] then []
    else [attendees[0].email] + Emails(attendees[1..])
  }

  /** The attendee mapping loses nothing: the addresses come back in order. */
  lemma {:induction false} EmailsOfAttendeeList(emails: seq<string>)
    ensures Emails(AttendeeList(emails)) == emails
  {
    if emails != [] {
      assert AttendeeList(emails)[1..] == AttendeeList(emails[1..]);
      EmailsOfAttendeeList(emails[1..]);
    }
  }

  /** The optional arguments of `update_calendar_event`; None is an argument left out. */
  datatype Patch = Patch(
    summary: Option<string>,
    start: Option<string>,
    end: Option<string>,
    location: Option<string>,
    description: Option<string>,
    attendees: Option<seq<string>>)

  /** The patch that supplies nothing. */
  const EmptyPatch: Patch := Patch(None, None, None, None, None, None)

  /** `slot['dateTime'] = value` when a value is supplied; None when the slot itself is missing (a `KeyError`). */
  function SetDateTime(slot: Option<EventTime>, value: Option<string>): (r: Option<Option<EventTime>>)
    ensures r.None? <==> value.Some? && slot.None?
    ensures value.None? ==> r == Some(slot)
    ensures value.Some? && slot.Some? ==>
      r == Some(Some(EventTime(value, slot.value.date, slot.value.timeZone)))
  {
    match value
    case None => Some(slot)
    case Some(v) =>
      match slot
      case None => None
      case Some(t) => Some(Some(t.(dateTime := Some(v))))
  }

  /**
   * The overlay of `update_calendar_event`: each supplied field replaces its
   * slot, start and end replace only their `dateTime` with the raw string.
   * None when a start or end is supplied but the fetched event has no such
   * object, where `update_calendar_event` raises `KeyError`.
   */
  function Merge(e: Event, p: Patch): (r: Option<Event>)
    ensures r.None? <==> (p.start.Some? && e.start.None?) || (p.end.Some? && e.end.None?)
  {
    match (SetDateTime(e.start, p.start), SetDateTime(e.end, p.end))
    case (Some(start), Some(end)) =>
      Some(Event(
        if p.summary.Some? then p.summary else e.summary,
        if p.location.Some? then p.location else e.location,
        if p.description.Some? then p.description else e.description,
        start,
        end,
        if p.attendees.Some? then Some(AttendeeList(p.attendees.value)) else e.attendees,
        e.others))
    case _ => None
  }

  /**
   * What the merge promises field by field: a supplied field wins, an omitted
   * one keeps the fetched value, and every key the tool does not know about
   * is unchanged.
   */
  lemma MergeOverlays(e: Event, p: Patch)
    requires Merge(e, p).Some?
    ensures var m := Merge(e, p).value;
      && m.summary == (if p.summary.Some? then p.summary else e.summary)
      && m.location == (if p.location.Some? then p.location else e.location)
      && m.description == (if p.description.Some? then p.description else e.description)
      && (p.start.None? ==> m.start == e.start)
      && (p.start.Some? ==> m.start == Some(e.start.value.(dateTime := p.start)))
      && (p.end.None? ==> m.end == e.end)
      && (p.end.Some? ==> m.end == Some(e.end.value.(dateTime := p.end)))
      && (p.attendees.None? ==> m.attendees == e.attendees)
      && (p.attendees.Some? ==> m.attendees.Some? && Emails(m.attendees.value) == p.attendees.value)
      && m.others == e.others
  {
    if p.attendees.Some? {
      EmailsOfAttendeeList(p.attendees.value);
    }
  }

  /** Supplying nothing writes back exactly the fetched event. */
  lemma MergeEmptyPatch(e: Event)
    ensures Merge(e, EmptyPatch) == Some(e)
  {
  }

  /** Applying the same patch twice is the same as applying it once. */
  lemma MergeIdempotent(e: Event, p: Patch)
    requires Merge(e, p).Some?
    ensures Merge(Merge(e, p).value, p) == Merge(e, p)
  {
  }
}

=== FILE: isoformat.dfy ===
/**
 * The two ISO 8601 literal forms the booking tool accepts, read the way
 * Python 3.11's `datetime.fromisoformat` and `time.fromisoformat` read
 * them, and the `isoformat()` rendering of an aware date-time:
 *
 *   date-time literal    YYYY-MM-DDTHH:MM:SS[offset]
 *   time-of-day literal  HH:MM:SS[offset]
 *   offset               Z | (+|-)HH:MM
 *
 * An offset's minutes are not range-checked on their own; only the whole
 * offset must lie strictly inside one day, as `datetime.timezone` demands.
 */
module IsoFormat {
  import opened Common
  import opened Civil

  predicate IsDigit(c: char) {
    '0' <= c <= '9'
  }

  function DigitChar(n: int): (c: char)
    requires 0 <= n < 10
    ensures IsDigit(c) && c as int - '0' as int == n
  {
    ('0' as int + n) as char
  }

  function Pow10(w: nat): nat {
    if w == 0 then 1 else 10 * Pow10(w - 1)
  }

  /** The value of a non-empty run of decimal digits; None for anything else. */
  function ParseNat(s: string): (r: Option<nat>)
    ensures r.Some? <==> |s| > 0 && forall i :: 0 <= i < |s| ==> IsDigit(s[i])
    ensures r.Some? ==> r.value < Pow10(|s|)
    decreases |s|
  {
    if |s| == 0 || !IsDigit(s[|s| - 1]) then None
    else
      var d := s[|s| - 1] as int - '0' as int;
      if |s| == 1 then Some(d)
      else
        match ParseNat(s[..|s| - 1])
        case None => None
        case Some(v) => Some(10 * v + d)
  }

  /** `n` written with exactly `width` digits, zero-padded on the left. */
  function FormatNat(n: nat, width: nat): (s: string)
    requires n < Pow10(width)
    ensures |s| == width
    ensures forall i :: 0 <= i < |s| ==> IsDigit(s[i])
  {
    if width == 0 then []
    else FormatNat(n / 10, width - 1) + [DigitChar(n % 10)]
  }

  /** Reading back a zero-padded numeral gives the number written. */
  lemma {:induction false} ParseFormatNat(n: nat, width: nat)
    requires 0 < width && n < Pow10(width)
    ensures ParseNat(FormatNat(n, width)) == Some(n)
  {
    var s := FormatNat(n, width);
    assert s[..|s| - 1] == FormatNat(n / 10, width - 1);
    if width > 1 {
      ParseFormatNat(n / 10, width - 1);
    }
  }

  /** An accepted numeral is the zero-padded spelling of its value at its own width. */
  lemma {:induction false} FormatParseNat(s: string)
    requires ParseNat(s).Some?
    ensures FormatNat(ParseNat(s).value, |s|) == s
    decreases |s|
  {
    var v := ParseNat(s).value;
    var d := s[|s| - 1] as int - '0' as int;
    assert DigitChar(d) == s[|s| - 1];
    if |s| > 1 {
      var prefix := s[..|s| - 1];
      FormatParseNat(prefix);
      assert v / 10 == ParseNat(prefix).value && v % 10 == d;
      assert s == prefix + [s[|s| - 1]];
    }
  }

  /** `YYYY-MM-DD`, a valid calendar date. */
  function ParseDate(s: string): (r: Option<Date>)
    ensures r.Some? ==> ValidDate(r.value)
  {
    if |s| != 10 || s[4] != '-' || s[7] != '-' then None
    else
      match (ParseNat(s[0..4]), ParseNat(s[5..7]), ParseNat(s[8..10]))
      case (Some(y), Some(m), Some(d)) =>
        if ValidDate(Date(y, m, d)) then Some(Date(y, m, d)) else None
      case _ => None
  }

  /** `HH:MM:SS`, a valid time of day. */
  function ParseTime(s: string): (r: Option<Time>)
    ensures r.Some? ==> ValidTime(r.value)
  {
    if |s| != 8 || s[2] != ':' || s[5] != ':' then None
    else
      match (ParseNat(s[0..2]), ParseNat(s[3..5]), ParseNat(s[6..8]))
      case (Some(h), Some(m), Some(sec)) =>
        if ValidTime(Time(h, m, sec)) then Some(Time(h, m, sec)) else None
      case _ => None
  }

  /** An offset suffix, in seconds east of UTC. */
  function ParseOffset(s: string): (r: Option<int>)
    ensures r.Some? ==> ValidOffset(r.value)
  {
    if s == "Z" then Some(0)
    else if |s| != 6 || (s[0] != '+' && s[0] != '-') || s[3] != ':' then None
    else
      match (ParseNat(s[1..3]), ParseNat(s[4..6]))
      case (Some(h), Some(m)) =>
        var magnitude := h * 3600 + m * 60;
        if magnitude < SecondsPerDay then Some(if s[0] == '-' then -magnitude else magnitude)
        else None
      case _ => None
  }

  /** The empty suffix (a naive reading) or an offset. */
  function ParseOptionalOffset(s: string): (r: Option<Option<int>>)
    ensures r.Some? ==> (r.value.Some? ==> ValidOffset(r.value.value))
    ensures r == Some(None) <==> s == []
  {
    if s == [] then Some(None)
    else
      match ParseOffset(s)
      case None => None
      case Some(o) => Some(Some(o))
  }

  /** `datetime.fromisoformat` restricted to the date-time literal form. */
  function ParseDateTimeLiteral(s: string): (r: Option<DateTime>)
    ensures r.Some? ==> ValidDateTime(r.value)
    ensures r.Some? ==> (r.value.IsAware() <==> |s| > 19)
  {
    if |s| < 19 || s[10] != 'T' then None
    else
      match (ParseDate(s[0..10]), ParseTime(s[11..19]), ParseOptionalOffset(s[19..]))
      case (Some(d), Some(t), Some(o)) => Some(DateTime(d, t, o))
      case _ => None
  }

  /** `time.fromisoformat` restricted to the time-of-day literal form: the time and its offset, if any. */
  function ParseTimeLiteral(s: string): (r: Option<(Time, Option<int>)>)
    ensures r.Some? ==> ValidTime(r.value.0)
    ensures r.Some? ==> (r.value.1.Some? ==> ValidOffset(r.value.1.value))
    ensures r.Some? ==> (r.value.1.Some? <==> |s| > 8)
    ensures r.Some? ==> |s| >= 8
  {
    if |s| < 8 then None
    else
      match (ParseTime(s[0..8]), ParseOptionalOffset(s[8..]))
      case (Some(t), Some(o)) => Some((t, o))
      case _ => None
  }

  function FormatDate(d: Date): (s: string)
    requires ValidDate(d)
    ensures |s| == 10
  {
    FormatNat(d.year, 4) + "-" + FormatNat(d.month, 2) + "-" + FormatNat(d.day, 2)
  }

  function FormatTime(t: Time): (s: string)
    requires ValidTime(t)
    ensures |s| == 8
  {
    FormatNat(t.hour, 2) + ":" + FormatNat(t.minute, 2) + ":" + FormatNat(t.second, 2)
  }

  /** `+HH:MM` or `-HH:MM`; a zero offset is written `+00:00`. */
  function FormatOffset(o: int): (s: string)
    requires ValidOffset(o)
    ensures |s| == 6
  {
    var magnitude := if o < 0 then -o else o;
    (if o < 0 then "-" else "+")
    + FormatNat(magnitude / 3600, 2) + ":" + FormatNat((magnitude % 3600) / 60, 2)
  }

  /**
   * `isoformat()` of an aware date-time: `YYYY-MM-DDTHH:MM:SS` then the
   * offset as a sign and `HH:MM`, with `+00:00` for UTC.
   */
  function FormatDateTime(dt: DateTime): (s: string)
    requires ValidDateTime(dt) && dt.IsAware()
    ensures |s| == 25
    ensures s[..19] == FormatDate(dt.date) + "T" + FormatTime(dt.time)
    ensures s[19] == (if dt.offset.value < 0 then '-' else '+') && s[22] == ':'
    ensures forall i :: 0 <= i < 25 && i != 4 && i != 7 && i != 10 && i != 13 && i != 16 && i != 19 && i != 22 ==> IsDigit(s[i])
    ensures dt.offset.value == 0 ==> s[19..] == "+00:00"
  {
    FormatDate(dt.date) + "T" + FormatTime(dt.time) + FormatOffset(dt.offset.value)
  }

  lemma ParseFormatDate(d: Date)
    requires ValidDate(d)
    ensures ParseDate(FormatDate(d)) == Some(d)
  {
    var s := FormatDate(d);
    assert s[0..4] == FormatNat(d.year, 4);
    assert s[5..7] == FormatNat(d.month, 2);
    assert s[8..10] == FormatNat(d.day, 2);
    ParseFormatNat(d.year, 4);
    ParseFormatNat(d.month, 2);
    ParseFormatNat(d.day, 2);
  }

  lemma ParseFormatTime(t: Time)
    requires ValidTime(t)
    ensures ParseTime(FormatTime(t)) == Some(t)
  {
    var s := FormatTime(t);
    assert s[0..2] == FormatNat(t.hour, 2);
    assert s[3..5] == FormatNat(t.minute, 2);
    assert s[6..8] == FormatNat(t.second, 2);
    ParseFormatNat(t.hour, 2);
    ParseFormatNat(t.minute, 2);
    ParseFormatNat(t.second, 2);
  }

  lemma ParseFormatOffset(o: int)
    requires ValidOffset(o)
    ensures ParseOffset(FormatOffset(o)) == Some(o)
  {
    var s := FormatOffset(o);
    var magnitude := if o < 0 then -o else o;
    assert s[1..3] == FormatNat(magnitude / 3600, 2);
    assert s[4..6] == FormatNat((magnitude % 3600) / 60, 2);
    ParseFormatNat(magnitude / 3600, 2);
    ParseFormatNat((magnitude % 3600) / 60, 2);
  }

  /** `datetime.fromisoformat(dt.isoformat()) == dt` for every aware date-time. */
  lemma ParseFormatDateTime(dt: DateTime)
    requires ValidDateTime(dt) && dt.IsAware()
    ensures ParseDateTimeLiteral(FormatDateTime(dt)) == Some(dt)
  {
    var s := FormatDateTime(dt);
    assert s[0..10] == FormatDate(dt.date);
    assert s[11..19] == FormatTime(dt.time);
    assert s[19..] == FormatOffset(dt.offset.value);
    ParseFormatDate(dt.date);
    ParseFormatTime(dt.time);
    ParseFormatOffset(dt.offset.value);
  }

  /** A naive date-time literal reads back as the date and time written, without an offset. */
  lemma ParseFormatNaive(d: Date, t: Time)
    requires ValidDate(d) && ValidTime(t)
    ensures ParseDateTimeLiteral(FormatDate(d) + "T" + FormatTime(t)) == Some(DateTime(d, t, None))
  {
    var s := FormatDate(d) + "T" + FormatTime(t);
    assert s[0..10] == FormatDate(d);
    assert s[11..19] == FormatTime(t);
    assert s[19..] == [];
    ParseFormatDate(d);
    ParseFormatTime(t);
  }

  /** A bare time-of-day literal reads back as the time written, naive; it is never a date-time literal. */
  lemma ParseFormatTimeLiteral(t: Time)
    requires ValidTime(t)
    ensures ParseTimeLiteral(FormatTime(t)) == Some((t, None))
    ensures ParseDateTimeLiteral(FormatTime(t)) == None
  {
    var s := FormatTime(t);
    assert s[0..8] == s;
    assert s[8..] == [];
    ParseFormatTime(t);
  }

  /** The two forms never overlap: a date-time literal is never also a time-of-day literal. */
  lemma LiteralFormsDisjoint(s: string)
    ensures ParseDateTimeLiteral(s).Some? ==> ParseTimeLiteral(s).None?
  {
  }

  /** An accepted date is spelled exactly as `FormatDate` spells it. */
  lemma FormatParseDate(s: string)
    requires ParseDate(s).Some?
    ensures FormatDate(ParseDate(s).value) == s
  {
    FormatParseNat(s[0..4]);
    FormatParseNat(s[5..7]);
    FormatParseNat(s[8..10]);
    assert s == s[0..4] + "-" + s[5..7] + "-" + s[8..10];
  }

  /** An accepted time of day is spelled exactly as `FormatTime` spells it. */
  lemma FormatParseTime(s: string)
    requires ParseTime(s).Some?
    ensures FormatTime(ParseTime(s).value) == s
  {
    FormatParseNat(s[0..2]);
    FormatParseNat(s[3..5]);
    FormatParseNat(s[6..8]);
    assert s == s[0..2] + ":" + s[3..5] + ":" + s[6..8];
  }

  /**
   * The offset suffixes accepted: `Z`, or a sign, two digits, a colon and
   * two digits whose value is hours and minutes with that sign.
   */
  lemma OffsetSpelling(s: string)
    requires ParseOffset(s).Some?
    ensures s == "Z" ==> ParseOffset(s) == Some(0)
    ensures s != "Z" ==>
              && |s| == 6 && (s[0] == '+' || s[0] == '-') && s[3] == ':'
              && ParseNat(s[1..3]).Some? && ParseNat(s[4..6]).Some?
              && s == [s[0]] + FormatNat(ParseNat(s[1..3]).value, 2) + ":" + FormatNat(ParseNat(s[4..6]).value, 2)
              && ParseOffset(s).value
                   == (if s[0] == '-' then -1 else 1) * (ParseNat(s[1..3]).value * 3600 + ParseNat(s[4..6]).value * 60)
  {
    if s != "Z" {
      FormatParseNat(s[1..3]);
      FormatParseNat(s[4..6]);
      assert s == [s[0]] + s[1..3] + ":" + s[4..6];
    }
  }

  /**
   * Every accepted date-time literal is the canonical `YYYY-MM-DDTHH:MM:SS`
   * spelling of its date and time, followed by nothing (naive) or by an
   * offset suffix that reads as its offset.
   */
  lemma DateTimeLiteralSpelling(s: string)
    requires ParseDateTimeLiteral(s).Some?
    ensures var dt := ParseDateTimeLiteral(s).value;
      && s[..19] == FormatDate(dt.date) + "T" + FormatTime(dt.time)
      && (dt.offset.None? <==> s[19..] == [])
      && (dt.offset.Some? ==> ParseOffset(s[19..]) == dt.offset)
  {
    FormatParseDate(s[0..10]);
    FormatParseTime(s[11..19]);
    assert s[..19] == s[0..10] + "T" + s[11..19];
  }

  /**
   * Every accepted time-of-day literal is the canonical `HH:MM:SS` spelling
   * of its time, followed by nothing (naive) or by an offset suffix that
   * reads as its offset.
   */
  lemma TimeLiteralSpelling(s: string)
    requires ParseTimeLiteral(s).Some?
    ensures var (t, offset) := ParseTimeLiteral(s).value;
      && s[..8] == FormatTime(t)
      && (offset.None? <==> s[8..] == [])
      && (offset.Some? ==> ParseOffset(s[8..]) == offset)
  {
    FormatParseTime(s[0..8]);
    assert s[..8] == s[0..8];
  }
}

=== FILE: scenarios.dfy ===
/** Worked requests through the create pipeline, on concrete literals. */
module Scenarios {
  import opened Common
  import opened Civil
  import opened IsoFormat
  import opened Events
  import opened CalendarStore
  import opened Booking

  /** A store with an empty calendar whose inserts succeed with a fixed link. */
  function EmptyCalendarStore(link: string): Store {
    Store(
      (q: Query) => Success([]),
      (e: Event) => Success(Some(link)),
      (id: string) => Failure(HttpError(404)),
      (id: string, e: Event) => Failure(HttpError(404)))
  }

  /** A run that gets past both literals and the buffer arithmetic is decided by the conflict stage. */
  lemma ReachesConflictStage(req: Request, now: DateTime, store: Store, start: DateTime, end: DateTime)
    requires ValidDateTime(now)
    requires ReadLiteral(req.start, now.date) == At(start)
    requires NormaliseEnd(req.end, start) == At(end)
    ensures ValidDateTime(start) && start.IsAware() && ValidDateTime(end) && end.IsAware()
    ensures ConflictQuery(start, end).Some? ==>
              CreateEvent(true, req, now, store) == ConflictStage(req, start, end, ConflictQuery(start, end).value, store)
  {
  }

  /** In an empty calendar a request whose literals are readable is created with the store's link. */
  lemma CreatedInEmptyCalendar(req: Request, now: DateTime, link: string, start: DateTime, end: DateTime)
    requires ValidDateTime(now)
    requires ReadLiteral(req.start, now.date) == At(start)
    requires NormaliseEnd(req.end, start) == At(end)
    requires end.date != Date(MaxYear, 12, 31)
    ensures ValidDateTime(start) && start.IsAware() && ValidDateTime(end) && end.IsAware()
    ensures CreateEvent(true, req, now, EmptyCalendarStore(link)).outcome == Created(Some(link))
    ensures CreateEvent(true, req, now, EmptyCalendarStore(link)).calls[1].body == BuildBody(req, start, end)
  {
    ReachesConflictStage(req, now, EmptyCalendarStore(link), start, end);
  }

  /** The São Paulo reading of 14:00 on 2025-03-10 (a Monday). */
  const MondayTwoPm: DateTime := DateTime(Date(2025, 3, 10), Time(14, 0, 0), Some(SaoPauloOffset))

  /** The same Monday at another São Paulo time of day. */
  function Monday(t: Time): DateTime {
    MondayTwoPm.(time := t)
  }

  /** The request of the Monday scenario: a start, nothing else. */
  const MondayRequest: Request := Request("Ana Souza - Ap 2 quartos", "2025-03-10T14:00:00", None, None, None, None)

  lemma MondayStart(now: DateTime)
    requires ValidDateTime(now)
    ensures ReadLiteral(MondayRequest.start, now.date) == At(MondayTwoPm)
  {
    assert MondayRequest.start == FormatDate(Date(2025, 3, 10)) + "T" + FormatTime(Time(14, 0, 0));
    ParseFormatNaive(Date(2025, 3, 10), Time(14, 0, 0));
  }

  lemma MondayFormats()
    ensures FormatDateTime(MondayTwoPm) == "2025-03-10T14:00:00-03:00"
    ensures FormatDateTime(Monday(Time(15, 0, 0))) == "2025-03-10T15:00:00-03:00"
  {
    assert FormatDate(Date(2025, 3, 10)) == "2025-03-10";
    assert FormatTime(Time(14, 0, 0)) == "14:00:00";
    assert FormatTime(Time(15, 0, 0)) == "15:00:00";
    assert FormatOffset(SaoPauloOffset) == "-03:00";
  }

  /**
   * A Monday booking given only a start: it is created, and the stored event
   * runs from 14:00 to 15:00 São Paulo time.
   */
  lemma OneHourBookingOnMonday(now: DateTime)
    requires ValidDateTime(now)
    ensures var r := CreateEvent(true, MondayRequest, now, EmptyCalendarStore("link"));
      && r.outcome == Created(Some("link"))
      && r.calls[1].body.start.value.dateTime == Some("2025-03-10T14:00:00-03:00")
      && r.calls[1].body.end.value.dateTime == Some("2025-03-10T15:00:00-03:00")
  {
    MondayStart(now);
    var end := Monday(Time(15, 0, 0));
    assert NormaliseEnd(MondayRequest.end, MondayTwoPm) == At(end);
    CreatedInEmptyCalendar(MondayRequest, now, "link", MondayTwoPm, end);
    MondayFormats();
  }

  /** The Monday request with an end time of day an hour before its start. */
  const EarlyEndRequest: Request := MondayRequest.(end := Some("13:00:00"))

  lemma EarlyEnd()
    ensures NormaliseEnd(EarlyEndRequest.end, MondayTwoPm) == At(Monday(Time(13, 0, 0)))
  {
    assert EarlyEndRequest.end.value == FormatTime(Time(13, 0, 0));
    ParseFormatTimeLiteral(Time(13, 0, 0));
  }

  /**
   * Nothing compares the end with the start. Whatever the store answers, an
   * end time of day before the start is placed on the start's date, and the
   * conflict query goes out with its upper bound before its lower bound.
   * On an empty answer the inserted body ends before it starts, and the run
   * is created when the store accepts that body.
   */
  lemma EndBeforeStartAccepted(now: DateTime, store: Store)
    requires ValidDateTime(now)
    ensures var r := CreateEvent(true, EarlyEndRequest, now, store);
      && |r.calls| >= 1 && r.calls[0].List?
      && ParseDateTimeLiteral(r.calls[0].query.timeMin) == Some(MondayTwoPm)
      && ParseDateTimeLiteral(r.calls[0].query.timeMax).Some?
      && ParseDateTimeLiteral(r.calls[0].query.timeMax).value.IsAware()
      && Instant(ParseDateTimeLiteral(r.calls[0].query.timeMax).value) < Instant(MondayTwoPm)
    ensures var r := CreateEvent(true, EarlyEndRequest, now, store);
      store.list(r.calls[0].query) == Success([]) ==>
        && |r.calls| == 2 && r.calls[1].Insert?
        && SlotInstant(r.calls[1].body.end).value < SlotInstant(r.calls[1].body.start).value
        && (store.insert(r.calls[1].body).Success? ==> r.outcome.Created?)
  {
    var start := MondayTwoPm;
    var end := Monday(Time(13, 0, 0));
    MondayStart(now);
    assert EarlyEndRequest.start == MondayRequest.start;
    EarlyEnd();
    assert ConflictQuery(start, end).Some?;
    ReachesConflictStage(EarlyEndRequest, now, store, start, end);
  }

  /** The Monday request with its start written in UTC. */
  const UtcRequest: Request := MondayRequest.(start := "2025-03-10T14:00:00+00:00")

  lemma UtcFormat()
    ensures FormatDateTime(MondayTwoPm.(offset := Some(0))) == UtcRequest.start
  {
    assert FormatDate(Date(2025, 3, 10)) == "2025-03-10";
    assert FormatTime(Time(14, 0, 0)) == "14:00:00";
    assert FormatOffset(0) == "+00:00";
  }

  lemma UtcStart(now: DateTime)
    requires ValidDateTime(now)
    ensures ReadLiteral(UtcRequest.start, now.date) == At(MondayTwoPm.(offset := Some(0)))
  {
    UtcFormat();
    ParseFormatDateTime(MondayTwoPm.(offset := Some(0)));
  }

  lemma UtcEnd()
    ensures var start := MondayTwoPm.(offset := Some(0));
      NormaliseEnd(UtcRequest.end, start) == At(start.(time := Time(15, 0, 0)))
  {
  }

  /**
   * An aware start keeps its own offset: 14:00 UTC is stored as written,
   * not converted to 11:00 São Paulo time, yet labelled with the São Paulo zone.
   */
  lemma AwareStartKeptAsWritten(now: DateTime)
    requires ValidDateTime(now)
    ensures var r := CreateEvent(true, UtcRequest, now, EmptyCalendarStore("link"));
      && r.outcome == Created(Some("link"))
      && r.calls[1].body.start.value.dateTime == Some("2025-03-10T14:00:00+00:00")
      && r.calls[1].body.start.value.timeZone == Some("America/Sao_Paulo")
  {
    var start := MondayTwoPm.(offset := Some(0));
    UtcStart(now);
    UtcEnd();
    CreatedInEmptyCalendar(UtcRequest, now, "link", start, start.(time := Time(15, 0, 0)));
    UtcFormat();
  }

  /** A stored event titled "Visita" between two São Paulo times of 2025-03-10. */
  function Visit(from: Time, to: Time): Event
    requires ValidTime(from) && ValidTime(to)
  {
    Event(Some("Visita"), None, None, Some(ZonedSlot(Monday(from))), Some(ZonedSlot(Monday(to))), None, map[])
  }

  /** A store listing `calendar` faithfully, whose inserts succeed with a fixed link. */
  function CalendarOf(calendar: seq<Event>): Store {
    Store(
      (q: Query) => ListFrom(calendar, q),
      (e: Event) => Success(Some("link")),
      (id: string) => Failure(HttpError(404)),
      (id: string, e: Event) => Failure(HttpError(404)))
  }

  /** The request for 11:10 to 12:00 on 2025-03-10. */
  const LateMorningRequest: Request :=
    MondayRequest.(start := "2025-03-10T11:10:00", end := Some("2025-03-10T12:00:00"))

  lemma LateMorningStart(now: DateTime)
    requires ValidDateTime(now)
    ensures ReadLiteral(LateMorningRequest.start, now.date) == At(Monday(Time(11, 10, 0)))
  {
    assert LateMorningRequest.start == FormatDate(Date(2025, 3, 10)) + "T" + FormatTime(Time(11, 10, 0));
    ParseFormatNaive(Date(2025, 3, 10), Time(11, 10, 0));
  }

  lemma LateMorningEnd()
    ensures NormaliseEnd(LateMorningRequest.end, Monday(Time(11, 10, 0))) == At(Monday(Time(12, 0, 0)))
  {
    assert LateMorningRequest.end.value == FormatDate(Date(2025, 3, 10)) + "T" + FormatTime(Time(12, 0, 0));
    ParseFormatNaive(Date(2025, 3, 10), Time(12, 0, 0));
  }

  /** What a faithful listing answers to the late-morning conflict query. */
  lemma LateMorningListing(visit: Event)
    ensures var q := ConflictQuery(Monday(Time(11, 10, 0)), Monday(Time(12, 0, 0)));
      && q.Some?
      && ListFrom([visit], q.value)
           == Success(Overlapping([visit], Instant(Monday(Time(11, 10, 0))), Instant(Monday(Time(12, 15, 0)))))
  {
    var limit := AddSeconds(Monday(Time(12, 0, 0)), BufferSeconds).value;
    assert limit == Monday(Time(12, 15, 0));
  }

  /**
   * The buffer follows the new event only: with a visit from 10:00 to 11:00,
   * a request for 11:10 to 12:00 is created, although it starts ten minutes
   * after the visit ends.
   */
  lemma BufferOnlyAfterNewEvent(now: DateTime)
    requires ValidDateTime(now)
    ensures CreateEvent(true, LateMorningRequest, now, CalendarOf([Visit(Time(10, 0, 0), Time(11, 0, 0))])).outcome
            == Created(Some("link"))
  {
    var visit := Visit(Time(10, 0, 0), Time(11, 0, 0));
    var start := Monday(Time(11, 10, 0));
    var end := Monday(Time(12, 0, 0));
    LateMorningStart(now);
    LateMorningEnd();
    ReachesConflictStage(LateMorningRequest, now, CalendarOf([visit]), start, end);
    LateMorningListing(visit);
    assert SlotInstant(visit.end) == Some(Instant(Monday(Time(11, 0, 0))));
    assert !Occupies(visit, Instant(start), Instant(Monday(Time(12, 15, 0))));
  }

  /**
   * A visit starting 10 minutes after the requested end falls inside the
   * 15-minute buffer: the request is refused, naming the visit.
   */
  lemma VisitInsideBufferConflicts(now: DateTime)
    requires ValidDateTime(now)
    ensures CreateEvent(true, LateMorningRequest, now, CalendarOf([Visit(Time(12, 10, 0), Time(13, 0, 0))])).outcome
            == Conflict("Visita")
  {
    var visit := Visit(Time(12, 10, 0), Time(13, 0, 0));
    var start := Monday(Time(11, 10, 0));
    var end := Monday(Time(12, 0, 0));
    LateMorningStart(now);
    LateMorningEnd();
    ReachesConflictStage(LateMorningRequest, now, CalendarOf([visit]), start, end);
    LateMorningListing(visit);
    assert SlotInstant(visit.start) == Some(Instant(Monday(Time(12, 10, 0))));
    assert SlotInstant(visit.end) == Some(Instant(Monday(Time(13, 0, 0))));
    assert Occupies(visit, Instant(start), Instant(Monday(Time(12, 15, 0))));
  }

  /** A start on the last representable day, with nothing else. */
  const LastDayRequest: Request := MondayRequest.(start := "9999-12-31T10:00:00")

  /**
   * Localising a naive start on 9999-12-31 overflows: the run ends with the
   * uncaught error before the store is called.
   */
  lemma LastDayStartOverflows(now: DateTime)
    requires ValidDateTime(now)
    ensures CreateEvent(true, LastDayRequest, now, EmptyCalendarStore("link")) == Run(StartOverflow, [])
  {
    assert LastDayRequest.start == FormatDate(Date(9999, 12, 31)) + "T" + FormatTime(Time(10, 0, 0));
    ParseFormatNaive(Date(9999, 12, 31), Time(10, 0, 0));
  }
}

=== FILE: store.dfy ===
/**
 * The Google Calendar service the tools call, reduced to what they send and
 * what they get back. A store is a value holding one answer function per
 * request kind; a run of a tool records the calls it made, in order.
 */
module CalendarStore {
  import opened Common
  import opened Civil
  import opened IsoFormat
  import opened Events

  /**
   * The arguments of `events().list(calendarId='primary', timeMin=..., timeMax=...,
   * singleEvents=True, maxResults=...)`, bounds as `isoformat()` strings.
   */
  datatype Query = Query(timeMin: string, timeMax: string, maxResults: nat)

  /** One request sent to the store. */
  datatype Call =
    | List(query: Query)
    | Insert(body: Event)
    | Get(eventId: string)
    | Update(eventId: string, body: Event)

  /**
   * The store's answers. `insert` and `update` answer with the written
   * event's `htmlLink` (None when the response has no such key).
   */
  datatype Store = Store(
    list: Query -> Result<seq<Event>, StoreError>,
    insert: Event -> Result<Option<string>, StoreError>,
    get: string -> Result<Event, StoreError>,
    update: (string, Event) -> Result<Option<string>, StoreError>)

  /** The instant an event's `start` or `end` object names, when it holds a parsable aware `dateTime`. */
  function SlotInstant(slot: Option<EventTime>): (r: Option<int>)
    ensures r.Some? ==> slot.Some? && slot.value.dateTime.Some?
  {
    if slot.None? || slot.value.dateTime.None? then None
    else
      match ParseDateTimeLiteral(slot.value.dateTime.value)
      case Some(dt) => if dt.IsAware() then Some(Instant(dt)) else None
      case None => None
  }

  /**
   * The listing filter of the Calendar API: an event is returned for the
   * bounds `lo`, `hi` when it ends after `lo` and starts before `hi`.
   */
  predicate Occupies(e: Event, lo: int, hi: int) {
    && SlotInstant(e.start).Some?
    && SlotInstant(e.end).Some?
    && SlotInstant(e.end).value > lo
    && SlotInstant(e.start).value < hi
  }

  /** The events of `calendar` that occupy part of the window from `lo` to `hi`, in calendar order. */
  function Overlapping(calendar: seq<Event>, lo: int, hi: int): (r: seq<Event>)
    ensures |r| <= |calendar|
    ensures forall i :: 0 <= i < |r| ==> r[i] in calendar && Occupies(r[i], lo, hi)
    ensures r == [] <==> forall i :: 0 <= i < |calendar| ==> !Occupies(calendar[i], lo, hi)
    ensures forall e :: e in calendar && Occupies(e, lo, hi) ==> e in r
  {
    if calendar == [] then []
    else if Occupies(calendar[0], lo, hi) then [calendar[0]] + Overlapping(calendar[1..], lo, hi)
    else
      assert forall i :: 1 <= i < |calendar| ==> calendar[i] == calendar[1..][i - 1];
      Overlapping(calendar[1..], lo, hi)
  }

  /**
   * A faithful answer to `q` from `calendar`: the first `maxResults` events
   * occupying the window between the query's bounds, or an HTTP 400 for
   * bounds it cannot read.
   */
  function ListFrom(calendar: seq<Event>, q: Query): (r: Result<seq<Event>, StoreError>)
    ensures r.Success? ==> |r.value| <= q.maxResults
    ensures r.Success? ==> forall i :: 0 <= i < |r.value| ==> r.value[i] in calendar
    ensures var lo, hi := ParseDateTimeLiteral(q.timeMin), ParseDateTimeLiteral(q.timeMax);
      r.Success? <==> lo.Some? && hi.Some? && lo.value.IsAware() && hi.value.IsAware()
  {
    match (ParseDateTimeLiteral(q.timeMin), ParseDateTimeLiteral(q.timeMax))
    case (Some(lo), Some(hi)) =>
      if lo.IsAware() && hi.IsAware() then
        var hits := Overlapping(calendar, Instant(lo), Instant(hi));
        Success(if |hits| <= q.maxResults then hits else hits[..q.maxResults])
      else Failure(HttpError(400))
    case _ => Failure(HttpError(400))
  }

  /**
   * A listing asked for at least one event comes back empty exactly when no
   * event of the calendar overlaps the window its bounds name.
   */
  lemma ListFromEmptyIffFree(calendar: seq<Event>, q: Query)
    requires q.maxResults > 0
    ensures var lo, hi := ParseDateTimeLiteral(q.timeMin), ParseDateTimeLiteral(q.timeMax);
      ListFrom(calendar, q).Success? ==>
        ((ListFrom(calendar, q).value == []) <==>
           forall i :: 0 <= i < |calendar| ==> !Occupies(calendar[i], Instant(lo.value), Instant(hi.value)))
  {
  }
}

=== FILE: updating.dfy ===
/**
 * `update_calendar_event`: fetch the event, overlay the supplied fields,
 * write it back. A 404 from either store call is reported as "not found".
 */
module Updating {
  import opened Common
  import opened Events
  import opened CalendarStore

  datatype UpdateOutcome =
    | NotInitialised
    | NotFound(eventId: string)
    | UpdateFailed(error: StoreError)
    | Updated(link: Option<string>)

  /** An outcome together with the store calls made on the way to it. */
  datatype UpdateRun = UpdateRun(outcome: UpdateOutcome, calls: seq<Call>)

  /** The `except HttpError` branch: status 404 names the event, anything else is passed on. */
  function StoreFailure(eventId: string, e: StoreError): (r: UpdateOutcome)
    ensures r.NotFound? <==> e == HttpError(404)
    ensures r.NotFound? ==> r.eventId == eventId
    ensures !r.NotFound? ==> r == UpdateFailed(e)
  {
    if e.HttpError? && e.status == 404 then NotFound(eventId) else UpdateFailed(e)
  }

  /** `update_calendar_event(event_id, ...)` with the service's readiness and the store as parameters. */
  function UpdateEvent(ready: bool, eventId: string, p: Patch, store: Store): (r: UpdateRun)
    ensures !ready ==> r == UpdateRun(NotInitialised, [])
    ensures ready ==> |r.calls| >= 1 && r.calls[0] == Get(eventId)
    ensures ready && store.get(eventId).Failure? ==>
              r == UpdateRun(StoreFailure(eventId, store.get(eventId).error), [Get(eventId)])
    ensures ready && store.get(eventId).Success? ==>
              var body := Merge(store.get(eventId).value, p);
              body.Some? && store.update(eventId, body.value).Failure? ==>
                r == UpdateRun(StoreFailure(eventId, store.update(eventId, body.value).error),
                               [Get(eventId), Update(eventId, body.value)])
    ensures ready && store.get(eventId).Success? && Merge(store.get(eventId).value, p).None? ==>
              r == UpdateRun(UpdateFailed(Unexpected), [Get(eventId)])
    ensures ready && store.get(eventId).Success? ==>
              var body := Merge(store.get(eventId).value, p);
              body.Some? && store.update(eventId, body.value).Success? ==>
                r == UpdateRun(Updated(store.update(eventId, body.value).value),
                               [Get(eventId), Update(eventId, body.value)])
    ensures forall i :: 0 <= i < |r.calls| && r.calls[i].Update? ==>
              && i == 1
              && r.calls[i].eventId == eventId
              && store.get(eventId).Success?
              && Merge(store.get(eventId).value, p) == Some(r.calls[i].body)
    ensures r.outcome.Updated? ==>
              |r.calls| == 2 && r.calls[1].Update? && store.update(eventId, r.calls[1].body) == Success(r.outcome.link)
  {
    if !ready then UpdateRun(NotInitialised, [])
    else
      match store.get(eventId)
      case Failure(e) => UpdateRun(StoreFailure(eventId, e), [Get(eventId)])
      case Success(fetched) =>
        match Merge(fetched, p)
        case None => UpdateRun(UpdateFailed(Unexpected), [Get(eventId)])
        case Some(body) =>
          match store.update(eventId, body)
          case Failure(e) => UpdateRun(StoreFailure(eventId, e), [Get(eventId), Update(eventId, body)])
          case Success(link) => UpdateRun(Updated(link), [Get(eventId), Update(eventId, body)])
  }

  /**
   * The body written back keeps every field the caller left out: supplying
   * only a summary leaves location, description, times, attendees and every
   * unknown key as fetched.
   */
  lemma UpdateKeepsUnsuppliedFields(ready: bool, eventId: string, p: Patch, store: Store)
    requires ready && UpdateEvent(ready, eventId, p, store).outcome.Updated?
    ensures var fetched := store.get(eventId).value;
            var written := UpdateEvent(ready, eventId, p, store).calls[1].body;
      && store.get(eventId).Success?
      && (p.summary.None? ==> written.summary == fetched.summary)
      && (p.location.None? ==> written.location == fetched.location)
      && (p.description.None? ==> written.description == fetched.description)
      && (p.start.None? ==> written.start == fetched.start)
      && (p.end.None? ==> written.end == fetched.end)
      && (p.attendees.None? ==> written.attendees == fetched.attendees)
      && written.others == fetched.others
  {
    var r := UpdateEvent(ready, eventId, p, store);
    assert r.calls[1].Update?;
    MergeOverlays(store.get(eventId).value, p);
  }

  /**
   * The start and end patches are written verbatim into `dateTime` and touch
   * nothing else of their object: no parsing, no zone, no date.
   */
  lemma UpdateWritesRawTimes(ready: bool, eventId: string, p: Patch, store: Store)
    requires ready && UpdateEvent(ready, eventId, p, store).outcome.Updated?
    ensures var fetched := store.get(eventId).value;
            var written := UpdateEvent(ready, eventId, p, store).calls[1].body;
      && store.get(eventId).Success?
      && (p.start.Some? ==> written.start.Some? && fetched.start.Some?
                            && written.start.value.dateTime == p.start
                            && written.start.value.date == fetched.start.value.date
                            && written.start.value.timeZone == fetched.start.value.timeZone)
      && (p.end.Some? ==> written.end.Some? && fetched.end.Some?
                          && written.end.value.dateTime == p.end
                          && written.end.value.date == fetched.end.value.date
                          && written.end.value.timeZone == fetched.end.value.timeZone)
  {
    var r := UpdateEvent(ready, eventId, p, store);
    assert r.calls[1].Update?;
    MergeOverlays(store.get(eventId).value, p);
  }

  /** A start or end patch on an event lacking that object never reaches the store's update. */
  lemma MissingSlotFailsBeforeWrite(ready: bool, eventId: string, p: Patch, store: Store)
    requires ready && store.get(eventId).Success?
    requires (p.start.Some? && store.get(eventId).value.start.None?) || (p.end.Some? && store.get(eventId).value.end.None?)
    ensures UpdateEvent(ready, eventId, p, store) == UpdateRun(UpdateFailed(Unexpected), [Get(eventId)])
  {
  }
}
